=== FILE: README.md ===
# Binary-tree node with owned children and a parent back-reference

This project models `NBinTree::TNode<T>`, the binary-tree node of `hw4/tree.h`.
Each node holds a value and owns its left and right children. It also keeps a
non-owning back-reference to its parent. In the C++ class the declared
constructors, `SetParent` and the fields are private, so the intended way to
make nodes is the factories `CreateLeaf` and `Fork`, and the intended way to
change a tree is `ReplaceLeft` and `ReplaceRight` and the wrappers built on
them (`Replace*WithLeaf`, `Remove*`). The implicit copy and move constructors
and assignments stay public, so C++ clients can still copy or assign whole
nodes. Dafny has no private members here, so the model does not enforce
either restriction; see "Left out".
Every replace runs the same four steps:

1. the incoming child gets this node as parent;
2. the outgoing child's parent is cleared;
3. the incoming child is swapped into the slot;
4. the old occupant is returned.

The model has two modules.

- `BinTree` (`tree.dfy`) holds the class `Node<T>`. Its fields are `value`,
  `left`, `right` and `parent`, and its methods change them in place in the
  source's order. The module also holds a value-level view of the same nodes:
  a *store* is a map from each node to its fields (`Links`). Each mutating
  operation has a store function: `Reparent`, `AddLeaf`, `Forked` and
  `Replace`. Every fork, replace and remove method takes a ghost set `S` of
  nodes the caller tracks. Its postcondition says that the fields of those nodes afterwards
  are exactly the store function applied to their fields before. This covers
  every node the caller can name, so it says which fields change and that
  nothing else does.
- `TreeInvariants` (`invariants.dfy`) states the tree's invariants on stores
  and proves what each operation preserves:
  - `WellFormed`: back-reference consistency in both directions, plus one
    owner per node;
  - `Acyclic`: the nodes can be ranked so that every parent sits strictly
    above its child.
  `NoNodeBelowItself` derives from these that following left/right from a
  node never comes back to it.

  The methods' results are about `Snapshot(S)`, the fields of the nodes in
  `S`, and the invariants are stated over such stores. They describe the
  whole tree only when `S` contains every node that holds a node of `S` in a
  slot, for example every node the caller has created: a node outside `S`
  that still holds a node of `S` is not seen by `Closed` or `WellFormed`.

One would expect `N.ReplaceLeft(N.GetLeft())` to leave everything as it was:
the child in place and still pointing back at `N`. The model follows the code
instead. In the code, the parent set at `hw4/tree.h:82`
is undone by the clear at line 83 when both name the same node. The child
stays in the slot but loses its parent. `SelfReplaceClearsParent` proves that
this outcome breaks back-reference consistency.

The ghost set `S` is not part of the C++ interface. Any caller can choose it,
for example every node it holds. Its preconditions only ask that the nodes the
operation touches are in it.

## Model

| member | source | states |
|---|---|---|
| BinTree.Node.Leaf | hw4/tree.h:120-123 | the one-argument constructor stores the value and leaves both children and the parent empty |
| BinTree.Node.Branch | hw4/tree.h:126-131 | the three-argument constructor stores the value and both children and leaves the node's own parent empty; it does not touch the children |
| BinTree.Node.HasLeft | hw4/tree.h:18-20 | true exactly when GetLeft() is non-null |
| BinTree.Node.HasRight | hw4/tree.h:22-24 | true exactly when GetRight() is non-null |
| BinTree.Node.HasParent | hw4/tree.h:26-29 | true exactly when the parent reference is non-null (`parent != null`); weak-pointer expiry is left out |
| BinTree.Node.GetValue | hw4/tree.h:31-33 | the node's value, the one its store entry records |
| BinTree.Node.GetLeft | hw4/tree.h:39-41 | the occupant of the left slot (null when empty), the one its store entry records |
| BinTree.Node.GetRight | hw4/tree.h:47-49 | the occupant of the right slot (null when empty), the one its store entry records |
| BinTree.Node.GetParent | hw4/tree.h:57-59 | null exactly when HasParent() is false, otherwise the parent reference |
| BinTree.Node.CreateLeaf | hw4/tree.h:65-68 | returns a fresh node holding v, with no left child, no right child and no parent |
| BinTree.Node.Fork | hw4/tree.h:71-77 | returns a fresh parentless node holding v, l and r; each non-null child's parent becomes the new node; the tracked nodes end up exactly as Forked says, so no other field changes |
| BinTree.Node.SetParent | hw4/tree.h:134-138 | a non-null node gets p as parent; a null node changes nothing (empty frame) |
| BinTree.Node.ReplaceLeft | hw4/tree.h:79-86 | returns the old left child and leaves x in the slot; right, value and (unless this node is x or the displaced node) its own parent are unchanged; x, when not the displaced node, gets this node as parent; the displaced node loses its parent; the tracked nodes end up exactly as Replace says |
| BinTree.Node.ReplaceRight | hw4/tree.h:88-94 | mirror of ReplaceLeft on the right slot |
| BinTree.Node.ReplaceRightWithLeaf | hw4/tree.h:96-98 | returns the old right child; the right slot holds a fresh childless leaf holding v whose parent is this node; left and value are unchanged, and so is this node's parent unless this node is the displaced node; the tracked nodes plus the leaf end up as AddLeaf followed by Replace says |
| BinTree.Node.ReplaceLeftWithLeaf | hw4/tree.h:100-102 | mirror of ReplaceRightWithLeaf on the left slot |
| BinTree.Node.RemoveLeft | hw4/tree.h:104-106 | returns the old left child, which now has no parent; HasLeft() is false afterwards; the tracked nodes end up as Replace with null says |
| BinTree.Node.RemoveRight | hw4/tree.h:108-110 | mirror of RemoveLeft on the right slot |
| BinTree.Reparent | hw4/tree.h:134-138 | store view of SetParent: only node's parent changes, and a null node leaves the store as it was |
| BinTree.AddLeaf | hw4/tree.h:65-68 | store view of CreateLeaf: adds f holding v with no children and no parent; every other node keeps its fields |
| BinTree.Forked | hw4/tree.h:71-77 | store view of Fork: adds f with children l and r and no parent; l and r get f as parent; every other node keeps its fields |
| BinTree.Replace | hw4/tree.h:79-94 | store view of a replace: the same nodes before and after, and the displaced node is the slot's previous occupant |
| BinTree.ReplaceEffect | hw4/tree.h:82-85 | the net effect of a replace on each node: only n's slot changes; the occupant's parent is cleared, even when it is also x; x otherwise gets n as parent; every other parent stays |
| TreeInvariants.SingleOwner | hw4/tree.h:114-118 | in a well-formed store a node sits in at most one slot of one parent |
| TreeInvariants.NoNodeBelowItself | hw4/tree.h:114-118 | in a well-formed acyclic store, following left/right from a node never comes back to it |
| TreeInvariants.ReplaceKeepsWellFormed | hw4/tree.h:79-94 | a replace whose incoming node is null or parentless keeps back-references consistent and ownership single |
| TreeInvariants.ReplaceClosed | hw4/tree.h:79-94 | a replace only moves links between nodes already in the store |
| TreeInvariants.ReplaceKeepsAcyclic | hw4/tree.h:79-94 | a replace keeps the store acyclic when the incoming node is null, or parentless and neither n nor an ancestor of n |
| TreeInvariants.ForkKeepsWellFormed | hw4/tree.h:71-77 | Fork over distinct parentless children keeps back-references consistent and ownership single |
| TreeInvariants.ForkedClosed | hw4/tree.h:71-77 | Fork only adds links to nodes already in the store and to the new node |
| TreeInvariants.ForkedChildrenPointBack | hw4/tree.h:74-75 | over a well-formed store whose l and r have no parent, after Fork every node in a slot has the slot's holder as parent |
| TreeInvariants.ForkedParentsHoldChild | hw4/tree.h:73-75 | over a well-formed store, after Fork every node's parent holds it in a slot |
| TreeInvariants.ForkKeepsAcyclic | hw4/tree.h:71-77 | Fork keeps the store acyclic whatever parents its children had, because the new node sits above all of them |
| TreeInvariants.AddLeafKeepsWellFormed | hw4/tree.h:65-68 | a fresh leaf keeps the store well-formed |
| TreeInvariants.AddLeafKeepsAcyclic | hw4/tree.h:65-68 | a fresh leaf keeps any acyclic store acyclic, and no parent chain from an older node reaches it |
| TreeInvariants.ReplaceWithLeafKeepsInvariants | hw4/tree.h:96-102 | replacing a child with a fresh leaf keeps the store well-formed and acyclic |
| TreeInvariants.RemoveDetaches | hw4/tree.h:104-110 | after a remove, the slot is empty and the removed node is a parentless node that no slot holds |
| TreeInvariants.RemoveFromEmptyIsNoop | hw4/tree.h:134-138 | removing from an empty slot changes no node, because SetParent on null does nothing |
| TreeInvariants.ReattachMovesOwnership | hw4/tree.h:79-94 | a removed subtree re-attached under another node has that node as its only holder and as its parent, and the store stays well-formed |
| TreeInvariants.SelfReplaceClearsParent | hw4/tree.h:82-84 | replacing a slot's occupant with itself keeps it in the slot but clears its parent, so a well-formed store stops being well-formed |

## Left out

- Reference counting, deallocation and `weak_ptr` expiry (`hw4/tree.h:28`, `58`, `62`) are not modelled. The parent is a plain nullable reference, and `HasParent` is `parent != null`. Dafny objects are never destroyed, so "the parent was freed, so HasParent becomes false" cannot be stated.
- The `enable_shared_from_this` / `weak_from_this` mechanics and the copy into `make_shared` inside the factories are left out. In the model, `this` is the receiver, and the factories allocate with `new`.
- The `const` overloads of `GetValue`, `GetLeft`, `GetRight` and `GetParent` are left out. They repeat the non-const versions.
- Access control is not modelled. In the code the declared constructors, `SetParent` and the fields `Value`, `Left`, `Right` and `Parent` are private (`hw4/tree.h:112-138`). In the model `BinTree.Node.Leaf`, `BinTree.Node.Branch`, `BinTree.Node.SetParent` and the fields `value`, `left`, `right` and `parent` are public, because Dafny offers no private members without export sets. A client can therefore break back-references directly, for example with `new Node.Branch(v, c, null)` on an attached `c`, or by assigning a field. The invariant lemmas describe stores built by the factories and the replace and remove methods, not stores changed by such direct writes.
- Copying or assigning a whole node has no counterpart in the model. `TNode` declares no copy or move constructor and no assignment operator, so C++ generates public ones, and the factories rely on them (`hw4/tree.h:67`, `73`). A client copy such as `std::make_shared<TNode<T>>(*n)` gives a second holder of `n`'s children. An assignment `*a = *b` overwrites `a`'s slots and parent without going through a replace. The invariant lemmas do not cover these.
- `HasLeft` and `HasRight` (`hw4/tree.h:18-24`) return a `shared_ptr` where the declared result is `bool`. That conversion is explicit in C++, so these two functions do not compile as written once they are instantiated. The model gives them their evident meaning, a non-null slot.
- BinTree.Node.GetValue does not model writing through the returned `T&`. The model reads the `value` field, which the class exposes as a field.
- Caller errors that the code does not detect are not modelled as errors:
  - attaching a node that is already held elsewhere;
  - attaching a node that would close a cycle.
  The store functions follow what the code does in these cases. The old holder keeps the node in its slot while the node's parent is overwritten. The invariant lemmas list the conditions under which the invariants survive, as preconditions.
- `hw5/any.cpp` and the `hw6` files are not part of this model. They are standalone demonstrations with no connection to the tree.

=== FILE: invariants.dfy ===
/**
 * The ownership invariants of a tree of Node<T> and what the operations do to
 * them, stated on stores (the value-level view of a set of nodes defined in
 * module BinTree):
 *  - back-reference consistency: a child's parent is the node holding it,
 *    and a node's parent holds it in one of its slots;
 *  - single ownership: no node is held in two slots;
 *  - acyclicity: the parent links can be numbered so that every parent is
 *    shallower than its child, so following left/right never comes back.
 */
module TreeInvariants {
  import opened BinTree

  /** Every child and every parent of a node of st is itself in st. */
  ghost predicate Closed<T>(st: Store<T>) {
    forall m :: m in st ==>
      && (st[m].left != null ==> st[m].left in st)
      && (st[m].right != null ==> st[m].right in st)
      && (st[m].parent != null ==> st[m].parent in st)
  }

  /** A node in a slot has the node holding it as its parent. */
  ghost predicate ChildrenPointBack<T>(st: Store<T>)
    requires Closed(st)
  {
    forall p, side: Side :: p in st && st[p].Child(side) != null ==> st[st[p].Child(side)].parent == p
  }

  /** A node's parent holds it in one of its slots. */
  ghost predicate ParentsHoldChild<T>(st: Store<T>)
    requires Closed(st)
  {
    forall c :: c in st && st[c].parent != null ==>
      st[st[c].parent].left == c || st[st[c].parent].right == c
  }

  /** No node fills both slots of one parent. */
  ghost predicate DistinctChildren<T>(st: Store<T>) {
    forall p :: p in st && st[p].left != null ==> st[p].left != st[p].right
  }

  /** Back-reference consistency and single ownership over the nodes of st. */
  ghost predicate WellFormed<T>(st: Store<T>) {
    && Closed(st)
    && ChildrenPointBack(st)
    && ParentsHoldChild(st)
    && DistinctChildren(st)
  }

  /** depth numbers the nodes of st so that each parent is in st and shallower than its child. */
  ghost predicate Ranked<T>(st: Store<T>, older depth: map<Node<T>, nat>) {
    && depth.Keys == st.Keys
    && forall c :: c in st && st[c].parent != null ==>
         st[c].parent in st && depth[st[c].parent] < depth[c]
  }

  /** No node is its own ancestor. */
  ghost predicate Acyclic<T>(st: Store<T>) {
    exists depth :: Ranked(st, depth)
  }

  /** The node k parent links above c, or null when the chain ends before that. */
  function Ancestor<T>(st: Store<T>, c: Node<T>, k: nat): (a: Node?<T>)
  {
    if k == 0 then c
    else if c in st && st[c].parent != null then Ancestor(st, st[c].parent, k - 1)
    else null
  }

  /** The node reached from c by following child slots along path, or null when a slot is empty. */
  function Descend<T>(st: Store<T>, c: Node<T>, path: seq<Side>): (d: Node?<T>)
    decreases |path|
  {
    if path == [] then c
    else if c in st && st[c].Child(path[0]) != null then Descend(st, st[c].Child(path[0]), path[1..])
    else null
  }

  /** The root of the tree that holds c: the end of its parent chain. */
  ghost function RootOf<T>(st: Store<T>, depth: map<Node<T>, nat>, c: Node<T>): (r: Node<T>)
    requires Ranked(st, depth) && c in st
    ensures r in st && st[r].parent == null
    ensures depth[r] <= depth[c]
    decreases depth[c]
  {
    if st[c].parent == null then c else RootOf(st, depth, st[c].parent)
  }

  /** The root of c's tree is one of c's ancestors (or c itself). */
  lemma {:induction false} RootIsAncestor<T>(st: Store<T>, depth: map<Node<T>, nat>, c: Node<T>) returns (k: nat)
    requires Ranked(st, depth) && c in st
    ensures Ancestor(st, c, k) == RootOf(st, depth, c)
    decreases depth[c]
  {
    if st[c].parent == null {
      k := 0;
    } else {
      var j := RootIsAncestor(st, depth, st[c].parent);
      k := j + 1;
    }
  }

  /** A node whose parent is null is the root of its own tree. */
  lemma RootOfRoot<T>(st: Store<T>, depth: map<Node<T>, nat>, c: Node<T>)
    requires Ranked(st, depth) && c in st && st[c].parent == null
    ensures RootOf(st, depth, c) == c
  {
  }

  /** In a well-formed store a node has one owner and sits in one of its slots. */
  lemma SingleOwner<T>(st: Store<T>, p: Node<T>, sp: Side, q: Node<T>, sq: Side)
    requires WellFormed(st) && p in st && q in st
    requires st[p].Child(sp) != null && st[p].Child(sp) == st[q].Child(sq)
    ensures p == q && sp == sq
  {
    assert st[st[p].Child(sp)].parent == p;
    assert st[st[q].Child(sq)].parent == q;
  }

  /** Following child links from a node leads to strictly deeper nodes. */
  lemma {:induction false} DescendDeepens<T>(st: Store<T>, depth: map<Node<T>, nat>, c: Node<T>, path: seq<Side>)
    requires WellFormed(st) && Ranked(st, depth) && c in st
    requires path != [] && Descend(st, c, path) != null
    ensures Descend(st, c, path) in st && depth[Descend(st, c, path)] > depth[c]
    decreases |path|
  {
    var child := st[c].Child(path[0]);
    assert child in st && st[child].parent == c;
    if path[1..] != [] {
      DescendDeepens(st, depth, child, path[1..]);
    }
  }

  /** Acyclicity of the child links: following left/right from a node never revisits it. */
  lemma NoNodeBelowItself<T>(st: Store<T>, c: Node<T>, path: seq<Side>)
    requires WellFormed(st) && Acyclic(st) && c in st && path != []
    ensures Descend(st, c, path) != c
  {
    var depth :| Ranked(st, depth);
    if Descend(st, c, path) != null {
      DescendDeepens(st, depth, c, path);
    }
  }

  /**
   * Replace keeps back-references consistent when the incoming node is null
   * or an unattached node of the store. (It may still close a cycle: see
   * ReplaceKeepsAcyclic.)
   */
  lemma ReplaceKeepsWellFormed<T>(st: Store<T>, n: Node<T>, side: Side, x: Node?<T>)
    requires WellFormed(st) && n in st
    requires x != null ==> x in st && st[x].parent == null
    ensures WellFormed(Replace(st, n, side, x).store)
  {
    var r := Replace(st, n, side, x);
    var s := r.store;
    var o := r.displaced;
    forall m | m in st
      ensures s[m] == (if m == n then st[m].WithChild(side, x) else st[m]).(parent :=
                        if m == o then null else if m == x then n else st[m].parent)
    {
      ReplaceEffect(st, n, side, x, m);
    }
    // x is not the other child of n, nor the occupant: both have n as parent.
    assert x != null ==> x != st[n].Child(side.Other()) && x != o;
    ReplaceClosed(st, n, side, x);
    forall p, sd: Side | p in s && s[p].Child(sd) != null
      ensures s[s[p].Child(sd)].parent == p
    {
      var c := s[p].Child(sd);
      if p == n && sd == side {
        assert c == x;
      } else {
        assert c == st[p].Child(sd);
        assert st[c].parent == p;
        assert c != o && c != x;
      }
    }
    forall c | c in s && s[c].parent != null
      ensures s[s[c].parent].left == c || s[s[c].parent].right == c
    {
      if c != x {
        var p := st[c].parent;
        assert c != o && s[c].parent == p;
        assert st[p].left == c || st[p].right == c;
        assert p == n ==> st[n].Child(side.Other()) == c;
      }
    }
    assert DistinctChildren(s);
  }

  /** Replace moves links between nodes of the store only. */
  lemma ReplaceClosed<T>(st: Store<T>, n: Node<T>, side: Side, x: Node?<T>)
    requires Closed(st) && n in st
    requires x != null ==> x in st
    ensures Closed(Replace(st, n, side, x).store)
  {
    var s := Replace(st, n, side, x).store;
    forall m | m in s
      ensures s[m].left != null ==> s[m].left in s
      ensures s[m].right != null ==> s[m].right in s
      ensures s[m].parent != null ==> s[m].parent in s
    {
      ReplaceEffect(st, n, side, x, m);
    }
  }

  /**
   * Replace keeps the store acyclic when the incoming node is null, or an
   * unattached node that is neither n nor one of n's ancestors.
   */
  lemma ReplaceKeepsAcyclic<T>(st: Store<T>, n: Node<T>, side: Side, x: Node?<T>)
    requires Acyclic(st) && n in st
    requires x != null ==> x in st && st[x].parent == null && forall k: nat :: Ancestor(st, n, k) != x
    ensures Acyclic(Replace(st, n, side, x).store)
  {
    var depth :| Ranked(st, depth);
    var s := Replace(st, n, side, x).store;
    var shifted := map c | c in st :: Sunk(st, depth, n, x, c);
    forall c | c in s && s[c].parent != null
      ensures s[c].parent in s && shifted[s[c].parent] < shifted[c]
    {
      SunkStep(st, depth, n, side, x, c);
    }
    assert Ranked(s, shifted);
  }

  /** The depth of c once x's tree hangs below n: that tree moves deeper than n, the rest stays. */
  ghost function Sunk<T>(st: Store<T>, depth: map<Node<T>, nat>, n: Node<T>, x: Node?<T>, c: Node<T>): (k: nat)
    requires Ranked(st, depth) && n in st && c in st
  {
    if x != null && RootOf(st, depth, c) == x then depth[c] + depth[n] + 1 else depth[c]
  }

  /** After Replace, every parent link in the store still leads to a strictly smaller Sunk depth. */
  lemma SunkStep<T>(st: Store<T>, depth: map<Node<T>, nat>, n: Node<T>, side: Side, x: Node?<T>, c: Node<T>)
    requires Ranked(st, depth) && n in st && c in st
    requires x != null ==> x in st && st[x].parent == null && forall k: nat :: Ancestor(st, n, k) != x
    ensures var s := Replace(st, n, side, x).store;
      s[c].parent != null ==> s[c].parent in st && Sunk(st, depth, n, x, s[c].parent) < Sunk(st, depth, n, x, c)
  {
    ReplaceEffect(st, n, side, x, c);
    if x != null {
      var k := RootIsAncestor(st, depth, n);
      assert RootOf(st, depth, n) != x;
      RootOfRoot(st, depth, x);
    }
    if c != x && st[c].parent != null {
      assert RootOf(st, depth, c) == RootOf(st, depth, st[c].parent);
    }
  }

  /** Fork keeps back-references consistent when its children are distinct unattached nodes. */
  lemma ForkKeepsWellFormed<T>(st: Store<T>, f: Node<T>, v: T, l: Node?<T>, r: Node?<T>)
    requires WellFormed(st) && f !in st
    requires l != null ==> l in st && st[l].parent == null
    requires r != null ==> r in st && st[r].parent == null
    requires l != null ==> l != r
    ensures WellFormed(Forked(st, f, v, l, r))
  {
    ForkedChildrenPointBack(st, f, v, l, r);
    ForkedParentsHoldChild(st, f, v, l, r);
  }

  /** Fork adds only f, and f's children come from the store: no link leaves it. */
  lemma ForkedClosed<T>(st: Store<T>, f: Node<T>, v: T, l: Node?<T>, r: Node?<T>)
    requires Closed(st) && f !in st && l != f && r != f
    requires l != null ==> l in st
    requires r != null ==> r in st
    ensures Closed(Forked(st, f, v, l, r))
  {
    var s := Forked(st, f, v, l, r);
    forall m | m in s
      ensures s[m].left != null ==> s[m].left in s
      ensures s[m].right != null ==> s[m].right in s
      ensures s[m].parent != null ==> s[m].parent in s
    {
      if m != f {
        assert s[m].left == st[m].left && s[m].right == st[m].right;
      }
    }
  }

  lemma ForkedChildrenPointBack<T>(st: Store<T>, f: Node<T>, v: T, l: Node?<T>, r: Node?<T>)
    requires WellFormed(st) && f !in st
    requires l != null ==> l in st && st[l].parent == null
    requires r != null ==> r in st && st[r].parent == null
    ensures Closed(Forked(st, f, v, l, r)) && ChildrenPointBack(Forked(st, f, v, l, r))
  {
    var s := Forked(st, f, v, l, r);
    ForkedClosed(st, f, v, l, r);
    forall p, sd: Side | p in s && s[p].Child(sd) != null
      ensures s[s[p].Child(sd)].parent == p
    {
      if p != f {
        var c := st[p].Child(sd);
        assert s[p].Child(sd) == c;
        assert st[c].parent == p && c != l && c != r;
        assert s[c] == st[c];
      }
    }
  }

  lemma ForkedParentsHoldChild<T>(st: Store<T>, f: Node<T>, v: T, l: Node?<T>, r: Node?<T>)
    requires WellFormed(st) && f !in st
    requires l != null ==> l in st
    requires r != null ==> r in st
    ensures Closed(Forked(st, f, v, l, r)) && ParentsHoldChild(Forked(st, f, v, l, r))
  {
    var s := Forked(st, f, v, l, r);
    ForkedClosed(st, f, v, l, r);
    forall c | c in s && s[c].parent != null
      ensures s[s[c].parent].left == c || s[s[c].parent].right == c
    {
      if c != l && c != r {
        var p := st[c].parent;
        assert s[c] == st[c] && p != null && p in st;
        assert s[p].left == st[p].left && s[p].right == st[p].right;
      }
    }
  }

  /** Fork keeps the store acyclic, whatever parents its children had: the new node is shallower than all. */
  lemma ForkKeepsAcyclic<T>(st: Store<T>, f: Node<T>, v: T, l: Node?<T>, r: Node?<T>)
    requires Acyclic(st) && f !in st && l != f && r != f
    ensures Acyclic(Forked(st, f, v, l, r))
  {
    var depth :| Ranked(st, depth);
    var s := Forked(st, f, v, l, r);
    var lowered := Lowered(depth, f);
    forall c | c in s && s[c].parent != null
      ensures s[c].parent in s && lowered[s[c].parent] < lowered[c]
    {
      if c != l && c != r && c != f {
        assert s[c] == st[c];
      }
    }
    assert Ranked(s, lowered);
  }

  /** Depths with f placed on top: f at 0, every other node one level lower than before. */
  ghost function Lowered<T>(depth: map<Node<T>, nat>, f: Node<T>): (d: map<Node<T>, nat>)
    requires f !in depth
    ensures d.Keys == depth.Keys + {f} && d[f] == 0
    ensures forall c :: c in depth ==> d[c] == depth[c] + 1
  {
    (map c | c in depth :: depth[c] + 1)[f := 0]
  }

  /** A fresh leaf keeps back-references consistent. */
  lemma AddLeafKeepsWellFormed<T>(st: Store<T>, f: Node<T>, v: T)
    requires WellFormed(st) && f !in st
    ensures WellFormed(AddLeaf(st, f, v))
  {
  }

  /** A fresh leaf keeps the store acyclic, and no parent chain from an old node reaches it. */
  lemma AddLeafKeepsAcyclic<T>(st: Store<T>, f: Node<T>, v: T)
    requires Acyclic(st) && f !in st
    ensures Acyclic(AddLeaf(st, f, v))
    ensures forall k: nat, c :: c in st ==> Ancestor(AddLeaf(st, f, v), c, k) != f
  {
    var s := AddLeaf(st, f, v);
    var depth :| Ranked(st, depth);
    assert Ranked(s, depth[f := 0]);
    forall k: nat, c | c in st
      ensures Ancestor(s, c, k) != f
    {
      AncestorsAvoid(s, f, c, k);
    }
  }

  /** If no node of st names f as parent, no parent chain from a node other than f reaches f. */
  lemma {:induction false} AncestorsAvoid<T>(st: Store<T>, f: Node<T>, c: Node<T>, k: nat)
    requires c != f
    requires forall m :: m in st ==> st[m].parent != f
    ensures Ancestor(st, c, k) != f
    decreases k
  {
    if k > 0 && c in st && st[c].parent != null {
      AncestorsAvoid(st, f, st[c].parent, k - 1);
    }
  }

  /** ReplaceLeftWithLeaf/ReplaceRightWithLeaf keep the store well-formed and acyclic. */
  lemma ReplaceWithLeafKeepsInvariants<T>(st: Store<T>, n: Node<T>, side: Side, f: Node<T>, v: T)
    requires WellFormed(st) && Acyclic(st) && n in st && f !in st
    ensures WellFormed(Replace(AddLeaf(st, f, v), n, side, f).store)
    ensures Acyclic(Replace(AddLeaf(st, f, v), n, side, f).store)
  {
    var s := AddLeaf(st, f, v);
    AddLeafKeepsWellFormed(st, f, v);
    AddLeafKeepsAcyclic(st, f, v);
    ReplaceKeepsWellFormed(s, n, side, f);
    ReplaceKeepsAcyclic(s, n, side, f);
  }

  /**
   * RemoveLeft/RemoveRight (Replace with null): the slot is empty afterwards,
   * and in a well-formed store the removed node is an unattached root that no
   * node holds.
   */
  lemma RemoveDetaches<T>(st: Store<T>, n: Node<T>, side: Side)
    requires WellFormed(st) && n in st
    ensures var r := Replace(st, n, side, null);
      && r.store[n].Child(side) == null
      && (r.displaced != null ==>
            && r.displaced in r.store
            && r.store[r.displaced].parent == null
            && forall m, sd: Side :: m in r.store ==> r.store[m].Child(sd) != r.displaced)
  {
    var r := Replace(st, n, side, null);
    ReplaceEffect(st, n, side, null, n);
    ReplaceKeepsWellFormed(st, n, side, null);
    if r.displaced != null {
      ReplaceEffect(st, n, side, null, r.displaced);
    }
  }

  /** Emptying a slot that is already empty changes no node at all. */
  lemma RemoveFromEmptyIsNoop<T>(st: Store<T>, n: Node<T>, side: Side)
    requires n in st && st[n].Child(side) == null
    ensures Replace(st, n, side, null) == Replaced(st, null)
  {
    assert st[n].WithChild(side, null) == st[n];
  }

  /**
   * A removed subtree can be put under another node: afterwards its root's
   * parent is the new holder, which is its only holder, and the store is
   * still well-formed.
   */
  lemma ReattachMovesOwnership<T>(st: Store<T>, p: Node<T>, sp: Side, q: Node<T>, sq: Side)
    requires WellFormed(st) && p in st && q in st && st[p].Child(sp) != null
    ensures var o := st[p].Child(sp);
      var s1 := Replace(st, p, sp, null).store;
      var s2 := Replace(s1, q, sq, o).store;
      && WellFormed(s2)
      && s2[o].parent == q
      && s2[q].Child(sq) == o
      && forall m, sd: Side :: m in s2 && s2[m].Child(sd) == o ==> m == q && sd == sq
  {
    var o := st[p].Child(sp);
    var s1 := Replace(st, p, sp, null).store;
    RemoveDetaches(st, p, sp);
    ReplaceKeepsWellFormed(st, p, sp, null);
    ReplaceKeepsWellFormed(s1, q, sq, o);
    var s2 := Replace(s1, q, sq, o).store;
    ReplaceEffect(s1, q, sq, o, o);
    ReplaceEffect(s1, q, sq, o, q);
    forall m, sd: Side | m in s2 && s2[m].Child(sd) == o
      ensures m == q && sd == sq
    {
      SingleOwner(s2, m, sd, q, sq);
    }
  }

  /**
   * Replacing a slot's occupant with itself, as the code runs it: the node
   * stays in the slot but its parent is cleared, which breaks back-reference
   * consistency.
   */
  lemma SelfReplaceClearsParent<T>(st: Store<T>, n: Node<T>, side: Side)
    requires n in st && st[n].Child(side) != null && st[n].Child(side) in st
    ensures var o := st[n].Child(side);
      var r := Replace(st, n, side, o);
      && r.displaced == o
      && r.store[n].Child(side) == o
      && r.store[o].parent == null
    ensures WellFormed(st) ==> !WellFormed(Replace(st, n, side, st[n].Child(side)).store)
  {
    var o := st[n].Child(side);
    var s := Replace(st, n, side, o).store;
    ReplaceEffect(st, n, side, o, n);
    ReplaceEffect(st, n, side, o, o);
  }
}

=== FILE: tree.dfy ===
/**
 * The binary-tree node NBinTree::TNode<T>: every node owns its left and right
 * children and keeps a non-owning back-reference to its parent. A tree is just
 * a reference to its root node; any node can act as the root of its subtree.
 *
 * Two views of the same nodes live in this module:
 *  - the class Node, whose methods change the fields in place, step by step,
 *    in the order the C++ code does;
 *  - a value-level "store" (a map from each node to its fields) with one
 *    function per mutating operation. Every fork, replace and remove method
 *    is proved to change the fields of any set of nodes it is given exactly
 *    as the corresponding store function says; module TreeInvariants proves what the
 *    store functions preserve.
 */
module BinTree {

  /** Which child slot of a node an operation addresses. */
  datatype Side = Left | Right
  {
    /** The opposite slot. */
    function Other(): (o: Side)
      ensures o != this
    {
      if this == Left then Right else Left
    }
  }

  /** The fields of one node, as a value. */
  datatype Links<T> = Links(value: T, left: Node?<T>, right: Node?<T>, parent: Node?<T>)
  {
    /** The occupant of the given slot. */
    function Child(side: Side): (c: Node?<T>) {
      if side == Left then left else right
    }

    /** These fields with the given slot holding c; the other slot, the value and the parent stay. */
    function WithChild(side: Side, c: Node?<T>): (w: Links<T>)
      ensures w.Child(side) == c && w.Child(side.Other()) == Child(side.Other())
      ensures w.value == value && w.parent == parent
    {
      if side == Left then this.(left := c) else this.(right := c)
    }
  }

  /** The fields of a set of nodes, as a value. */
  type Store<T> = map<Node<T>, Links<T>>

  /** The fields of node m, read from the heap. */
  ghost function LinksOf<T>(m: Node<T>): (l: Links<T>)
    reads m
  {
    Links(m.value, m.left, m.right, m.parent)
  }

  /** The fields of the nodes in S, read from the heap. */
  ghost function Snapshot<T>(S: set<Node<T>>): (st: Store<T>)
    reads S
    ensures st.Keys == S
  {
    map m | m in S :: LinksOf(m)
  }

  /** The node n as a set: empty when n is null. Frames of nullable references use it. */
  function Present<T>(n: Node?<T>): (s: set<Node<T>>)
    ensures n != null <==> n in s
    ensures |s| <= 1
  {
    if n == null then {} else {n}
  }

  /** Store counterpart of Node.SetParent: writes node's parent; a null node is left alone. */
  function Reparent<T>(st: Store<T>, node: Node?<T>, p: Node?<T>): (r: Store<T>)
    ensures r.Keys == st.Keys
    ensures node == null ==> r == st
    ensures forall m :: m in st ==> r[m] == if m == node then st[m].(parent := p) else st[m]
  {
    if node != null && node in st then st[node := st[node].(parent := p)] else st
  }

  /** Store counterpart of Node.CreateLeaf: the fresh node f with no children and no parent. */
  function AddLeaf<T>(st: Store<T>, f: Node<T>, v: T): (s: Store<T>)
    requires f !in st
    ensures s.Keys == st.Keys + {f}
    ensures s[f] == Links(v, null, null, null)
    ensures forall m :: m in st ==> s[m] == st[m]
  {
    st[f := Links(v, null, null, null)]
  }

  /**
   * Store counterpart of Node.Fork: the fresh node f holds l and r, then each
   * present child gets f as its parent. Whatever parent l or r had before is
   * overwritten, and the node that held it keeps it in its slot.
   */
  function Forked<T>(st: Store<T>, f: Node<T>, v: T, l: Node?<T>, r: Node?<T>): (s: Store<T>)
    requires f !in st && l != f && r != f
    ensures s.Keys == st.Keys + {f}
    ensures s[f] == Links(v, l, r, null)
    ensures forall m :: m in st ==>
      s[m] == if m == l || m == r then st[m].(parent := f) else st[m]
  {
    var s0 := st[f := Links(v, l, r, null)];
    var s1 := Reparent(s0, s0[f].left, f);
    Reparent(s1, s1[f].right, f)
  }

  /** What a replace leaves behind: the new fields, and the node taken out of the slot. */
  datatype Replaced<T> = Replaced(store: Store<T>, displaced: Node?<T>)

  /**
   * Store counterpart of ReplaceLeft/ReplaceRight, in the source's four steps:
   * the incoming x gets n as parent, the current occupant's parent is cleared,
   * x goes into the slot, and the former occupant is returned. When x is the
   * current occupant the clear comes last, so x ends up in the slot with no
   * parent.
   */
  function Replace<T>(st: Store<T>, n: Node<T>, side: Side, x: Node?<T>): (r: Replaced<T>)
    requires n in st
    ensures r.store.Keys == st.Keys
    ensures r.displaced == st[n].Child(side)
  {
    var s1 := Reparent(st, x, n);
    var occupant := s1[n].Child(side);
    var s2 := Reparent(s1, occupant, null);
    Replaced(s2[n := s2[n].WithChild(side, x)], occupant)
  }

  /**
   * The net effect of Replace on each node: only n's slot changes, and only
   * the displaced node's and x's parents; the displaced node loses its parent
   * even when it is x itself.
   */
  lemma ReplaceEffect<T>(st: Store<T>, n: Node<T>, side: Side, x: Node?<T>, m: Node<T>)
    requires n in st && m in st
    ensures Replace(st, n, side, x).store[m] ==
      (if m == n then st[m].WithChild(side, x) else st[m]).(parent :=
        if m == st[n].Child(side) then null else if m == x then n else st[m].parent)
  {
  }

  /**
   * Bridge from the heap to the store: when every node of S has changed its
   * fields exactly as ReplaceEffect says, the snapshot of S is Replace's store.
   */
  twostate lemma SnapshotAfterReplace<T>(new S: set<Node<T>>, new n: Node<T>, side: Side, new x: Node?<T>)
    requires n in S
    requires forall m :: m in S ==> old(allocated(m))
    requires forall m :: m in S ==>
      LinksOf(m) ==
        (if m == n then old(LinksOf(m)).WithChild(side, x) else old(LinksOf(m))).(parent :=
          if m == old(LinksOf(n)).Child(side) then null else if m == x then n else old(m.parent))
    ensures Snapshot(S) == Replace(old(Snapshot(S)), n, side, x).store
  {
    forall m | m in S
      ensures Snapshot(S)[m] == Replace(old(Snapshot(S)), n, side, x).store[m]
    {
      ReplaceEffect(old(Snapshot(S)), n, side, x, m);
    }
  }

  /** Bridge for Fork: the new node f holds l and r, and l and r have f as parent. */
  twostate lemma SnapshotAfterFork<T>(new S: set<Node<T>>, new f: Node<T>, new v: T, new l: Node?<T>, new r: Node?<T>)
    requires f !in S && l != f && r != f
    requires forall m :: m in S ==> old(allocated(m))
    requires LinksOf(f) == Links(v, l, r, null)
    requires forall m :: m in S ==>
      LinksOf(m) == if m == l || m == r then old(LinksOf(m)).(parent := f) else old(LinksOf(m))
    ensures Snapshot(S + {f}) == Forked(old(Snapshot(S)), f, v, l, r)
  {
    forall m | m in S + {f}
      ensures Snapshot(S + {f})[m] == Forked(old(Snapshot(S)), f, v, l, r)[m]
    {
    }
  }

  /** Bridge for CreateLeaf: a fresh leaf f added to S, nothing else changed. */
  twostate lemma SnapshotAfterLeaf<T>(new S: set<Node<T>>, new f: Node<T>, new v: T)
    requires f !in S
    requires forall m :: m in S ==> old(allocated(m)) && unchanged(m)
    requires LinksOf(f) == Links(v, null, null, null)
    ensures Snapshot(S + {f}) == AddLeaf(old(Snapshot(S)), f, v)
  {
    forall m | m in S + {f}
      ensures Snapshot(S + {f})[m] == AddLeaf(old(Snapshot(S)), f, v)[m]
    {
    }
  }

  class Node<T> {
    var value: T
    var left: Node?<T>
    var right: Node?<T>
    var parent: Node?<T>

    /** The one-argument constructor: no children, no parent. */
    constructor Leaf(v: T)
      ensures value == v && left == null && right == null && parent == null
    {
      value, left, right, parent := v, null, null, null;
    }

    /** The three-argument constructor: stores the children and leaves the children's parents alone; its own parent is null. */
    constructor Branch(v: T, l: Node?<T>, r: Node?<T>)
      ensures value == v && left == l && right == r && parent == null
    {
      value, left, right, parent := v, l, r, null;
    }

    predicate HasLeft()
      reads this
      ensures HasLeft() <==> GetLeft() != null
    {
      left != null
    }

    predicate HasRight()
      reads this
      ensures HasRight() <==> GetRight() != null
    {
      right != null
    }

    /** A parent reference is present; weak-pointer expiry is not modelled. */
    predicate HasParent()
      reads this
      ensures HasParent() <==> LinksOf(this).parent != null
    {
      parent != null
    }

    /** The node's value, as its store entry records it. */
    function GetValue(): (v: T)
      reads this
      ensures v == LinksOf(this).value
    {
      value
    }

    /** The occupant of the left slot, as its store entry records it. */
    function GetLeft(): (l: Node?<T>)
      reads this
      ensures l == LinksOf(this).Child(Left)
    {
      left
    }

    /** The occupant of the right slot, as its store entry records it. */
    function GetRight(): (r: Node?<T>)
      reads this
      ensures r == LinksOf(this).Child(Right)
    {
      right
    }

    /** The parent if there is one, otherwise null. */
    function GetParent(): (p: Node?<T>)
      reads this
      ensures p == null <==> !HasParent()
      ensures HasParent() ==> p == parent
    {
      if HasParent() then parent else null
    }

    static method CreateLeaf(v: T) returns (n: Node<T>)
      ensures fresh(n)
      ensures n.GetValue() == v && !n.HasLeft() && !n.HasRight() && !n.HasParent()
    {
      n := new Node.Leaf(v);
    }

    /**
     * Builds a node holding l and r and makes it their parent. Attaching a node
     * that already has a parent is a caller error the code does not detect:
     * the old parent keeps it in its slot (see Forked).
     */
    static method Fork(v: T, l: Node?<T>, r: Node?<T>, ghost S: set<Node<T>>) returns (n: Node<T>)
      requires l != null ==> l in S
      requires r != null ==> r in S
      modifies Present(l)`parent, Present(r)`parent
      ensures fresh(n)
      ensures n.value == v && n.left == l && n.right == r && n.parent == null
      ensures l != null ==> l.parent == n
      ensures r != null ==> r.parent == n
      ensures Snapshot(S + {n}) == Forked(old(Snapshot(S)), n, v, l, r)
    {
      n := new Node.Branch(v, l, r);
      SetParent(l, n);
      SetParent(r, n);
      SnapshotAfterFork(S, n, v, l, r);
    }

    /** The parent back-reference of node becomes p; a null node is a no-op. */
    static method SetParent(node: Node?<T>, p: Node?<T>)
      modifies Present(node)`parent
      ensures node != null ==> node.parent == p
    {
      if node != null {
        node.parent := p;
      }
    }

    /**
     * Puts x into the left slot and returns the former left child. The steps
     * run in the source's order, so x == GetLeft() leaves x in the slot with
     * no parent.
     */
    method ReplaceLeft(x: Node?<T>, ghost S: set<Node<T>>) returns (displaced: Node?<T>)
      requires this in S && (x != null ==> x in S) && (left != null ==> left in S)
      modifies this`left, Present(x)`parent, Present(left)`parent
      ensures displaced == old(left) && left == x
      ensures right == old(right) && value == old(value)
      ensures this != x && this != displaced ==> parent == old(parent)
      ensures x != null && x != displaced ==> x.parent == this
      ensures displaced != null ==> displaced.parent == null
      ensures Snapshot(S) == Replace(old(Snapshot(S)), this, Left, x).store
    {
      SetParent(x, this);
      SetParent(left, null);
      displaced := left;
      left := x;
      SnapshotAfterReplace(S, this, Left, x);
    }

    /** Mirror of ReplaceLeft on the right slot. */
    method ReplaceRight(x: Node?<T>, ghost S: set<Node<T>>) returns (displaced: Node?<T>)
      requires this in S && (x != null ==> x in S) && (right != null ==> right in S)
      modifies this`right, Present(x)`parent, Present(right)`parent
      ensures displaced == old(right) && right == x
      ensures left == old(left) && value == old(value)
      ensures this != x && this != displaced ==> parent == old(parent)
      ensures x != null && x != displaced ==> x.parent == this
      ensures displaced != null ==> displaced.parent == null
      ensures Snapshot(S) == Replace(old(Snapshot(S)), this, Right, x).store
    {
      SetParent(x, this);
      SetParent(right, null);
      displaced := right;
      right := x;
      SnapshotAfterReplace(S, this, Right, x);
    }

    /** Puts a fresh leaf holding v into the right slot; returns the former right child. */
    method ReplaceRightWithLeaf(v: T, ghost S: set<Node<T>>) returns (displaced: Node?<T>)
      requires this in S && (right != null ==> right in S)
      modifies this`right, Present(right)`parent
      ensures displaced == old(right)
      ensures fresh(right) && right.value == v && !right.HasLeft() && !right.HasRight()
      ensures right.parent == this
      ensures left == old(left) && value == old(value)
      ensures this != displaced ==> parent == old(parent)
      ensures displaced != null ==> displaced.parent == null
      ensures Snapshot(S + {right}) == Replace(AddLeaf(old(Snapshot(S)), right, v), this, Right, right).store
    {
      var leaf := CreateLeaf(v);
      SnapshotAfterLeaf(S, leaf, v);
      displaced := ReplaceRight(leaf, S + {leaf});
    }

    /** Puts a fresh leaf holding v into the left slot; returns the former left child. */
    method ReplaceLeftWithLeaf(v: T, ghost S: set<Node<T>>) returns (displaced: Node?<T>)
      requires this in S && (left != null ==> left in S)
      modifies this`left, Present(left)`parent
      ensures displaced == old(left)
      ensures fresh(left) && left.value == v && !left.HasLeft() && !left.HasRight()
      ensures left.parent == this
      ensures right == old(right) && value == old(value)
      ensures this != displaced ==> parent == old(parent)
      ensures displaced != null ==> displaced.parent == null
      ensures Snapshot(S + {left}) == Replace(AddLeaf(old(Snapshot(S)), left, v), this, Left, left).store
    {
      var leaf := CreateLeaf(v);
      SnapshotAfterLeaf(S, leaf, v);
      displaced := ReplaceLeft(leaf, S + {leaf});
    }

    /** Empties the left slot; returns the former left child, now without a parent. */
    method RemoveLeft(ghost S: set<Node<T>>) returns (displaced: Node?<T>)
      requires this in S && (left != null ==> left in S)
      modifies this`left, Present(left)`parent
      ensures displaced == old(left) && !HasLeft()
      ensures right == old(right) && value == old(value)
      ensures this != displaced ==> parent == old(parent)
      ensures displaced != null ==> displaced.parent == null
      ensures Snapshot(S) == Replace(old(Snapshot(S)), this, Left, null).store
    {
      displaced := ReplaceLeft(null, S);
    }

    /** Empties the right slot; returns the former right child, now without a parent. */
    method RemoveRight(ghost S: set<Node<T>>) returns (displaced: Node?<T>)
      requires this in S && (right != null ==> right in S)
      modifies this`right, Present(right)`parent
      ensures displaced == old(right) && !HasRight()
      ensures left == old(left) && value == old(value)
      ensures this != displaced ==> parent == old(parent)
      ensures displaced != null ==> displaced.parent == null
      ensures Snapshot(S) == Replace(old(Snapshot(S)), this, Right, null).store
    {
      displaced := ReplaceRight(null, S);
    }
  }
}
